=== FILE: README.md ===
# iTunes Connect Analytics query builder, modelled in Dafny

This project models the query builder of the iTunes Connect Analytics client
(`src/query.js`). The builder is a `Query` object holding a loosely typed
configuration, an account identifier (`adamId`), an endpoint chosen by one of
two presets, and an optional relative time window. Its main parts are:

- the fluent setters `metrics`, `sources`, `date`, `time` and `limit`;
- `assembleBody`, which turns the state into the request body;
- the `AnalyticsQuery` factory, which calls any prototype method by name on a
  new builder, and its helpers `AnalyticsQuery.metrics` and
  `AnalyticsQuery.sources`;
- the date normaliser `toMomentObject`;
- the exported constant tables.

Modules:

- `Calendar` (calendar.dfy): proleptic Gregorian dates and day numbers. They
  are the reference order behind moment's `diff` and the step counter behind
  its `subtract`.
- `Digits` (digits.dfy): moment's `zeroFill` and reading decimal digits back.
- `Moments` (moments.dfy): the moment.js object the builder uses.
  - `Moment` is a class whose `stamp` field `Subtract` changes in place, so two
    configuration slots can share one moment.
  - `DiffDays` gives day differences, with `None` standing for NaN.
  - `Format` renders the builder's timestamp pattern `YYYY-MM-DD[T00:00:000Z]`.
- `Values` (values.dfy): the JavaScript values the configuration holds, and
  the two errors the builder throws.
- `DateNormalizer` (normalizer.dfy): `toMomentObject`.
  - `Normalize` is the value it produces, or the error it throws.
  - `ToMomentObject` returns the same moment object, or a new one.
- `QueryBuilder` (query.dfy):
  - the constant tables and the configuration record `Config`: one `Option`
    slot per key the builder knows, `None` for a deleted or absent key, plus
    the remaining keys;
  - the `Query` class;
  - the range reconciliation of `assembleBody` as the function `Reconciled`;
  - the body as the function `BodyOf`;
  - the factory.
- `Scenarios` (scenarios.dfy): the builder on concrete inputs, stated as
  calls on the class.
  - A zero-day span with a seven-day window gives the trailing week, for
    example 2024-03-03 to 2024-03-10 for `date('2024-03-10')`.
  - An end before the start collapses the range onto the end, for example
    `date('2024-03-10', '2024-03-01')` sends 2024-03-01 twice.
  - A single measure is sent as a one-element list.
  - The factory called with the names `metrics` and `sources` gives the
    two presets.
  - A collapse leaves the caller's own start moment holding its day.
  - An unknown query type is refused.
  - A string without a date is refused.

The clock is a parameter: `now` is the calendar date `moment()` reads.

Behaviour kept exactly as the code has it:

- `assembleBody` compares `dimension` and `limit` with the string
  `'undefined'`, not with `undefined`. Both keys are therefore always copied
  into the body, as undefined when they are missing.
- `AnalyticsQuery` accepts every function the prototype holds. That includes
  `constructor`, which re-initialises the builder with no arguments.
- `time()` with no arguments stores `[undefined, undefined]`. moment reads
  `subtract(undefined, undefined)` as a zero duration, so the model stores a
  zero-day window.
- `date(m)` with a single moment stores that one object as both start and
  end. A collapse makes the start the end's object. A later shift then moves
  both. `ReassemblyMovesSharedRange` proves that each further assembly of such
  a builder with a non-zero window moves the shared range again.
- A negative window on a zero-day span moves the start past a separate end
  moment, so the range sent is inverted (`NegativeWindowInvertsRange`).
  Nothing in the code guards against it. When start and end are one moment
  object, both move forward together and the range stays a single day
  (`ReconciledRange`).

## Model

| member | source | states |
|---|---|---|
| Calendar.AddDays | src/query.js:109 | moving a date by n days gives a valid date whose day number is exactly n more |
| Calendar.DayNumberOrder | src/query.js:108-110 | day numbers order dates exactly as the calendar does, in both directions |
| Calendar.DayNumberInjective | src/query.js:108 | two dates have the same day number if and only if they are the same date |
| Calendar.YearLength | src/query.js:109 | a year spans 366 days when it is a leap year and 365 otherwise, between its first day and the next year's |
| Digits.ZeroFill | src/query.js:121-122 | the text is never empty, starts with a minus sign exactly for a negative number, and a non-negative number gives at least width digits |
| Digits.ZeroFillRoundTrip | src/query.js:114 | a number below 10^width zero-fills to exactly width digits that read back as the number |
| Moments.Shifted | src/query.js:109 | a shift keeps a valid day valid and moves its day number by the amount; an invalid date stays invalid |
| Moments.DiffDays | src/query.js:108-110 | the difference is defined exactly when both dates are valid; it is negative exactly when the end is before the start, and zero exactly on the same day |
| Moments.Format | src/query.js:114 | the text is "Invalid date" exactly for an invalid moment |
| Moments.Moment.Subtract | src/query.js:109 | the same moment object now holds its old date moved back by amount times the unit's days |
| DateNormalizer.FindDatePattern | src/query.js:152-153 | finds the first position where the NNNN-NN-NN pattern matches, or reports that it matches nowhere |
| DateNormalizer.ParsedDateFormatsBack | src/query.js:152-154 | a valid date parsed from the matched text formats back to exactly that text (with FormatRoundTrip, parsing and formatting are inverse on four-digit years) |
| DateNormalizer.Normalize | src/query.js:145-157 | a moment gives its own value; the error comes exactly for a value that is not a moment, not a Date and not a string with the pattern, and it carries that value |
| DateNormalizer.ToMomentObject | src/query.js:145-157 | returns the same object for a moment and a new moment holding the normalised value otherwise; fails exactly when normalisation fails |
| DateNormalizer.NoDigitsNoMatch | src/query.js:152-153 | a string without digits never matches the pattern |
| DateNormalizer.FormatRoundTrip | src/query.js:114 | a formatted day with a four-digit year has 21 characters, starts with the pattern, ends with the literal suffix, and normalises back to the same day |
| DateNormalizer.LeadingDateParsed | src/query.js:152-154 | a string that starts with the pattern is parsed from its first character |
| DateNormalizer.DatePrefixRoundTrip | src/query.js:152-154 | the YYYY-MM-DD part of a formatted day normalises back to that day |
| DateNormalizer.InvalidFormatRejected | src/query.js:153-156 | the text of an invalid moment is itself refused by the normaliser |
| DateNormalizer.ShapeIndependence | src/query.js:145-154 | a Date, its formatted text and a moment holding the day all normalise to the same day |
| DateNormalizer.NotADateRejected | src/query.js:156 | "not-a-date" is refused with the unknown date format error |
| QueryBuilder.MethodNamed | src/query.js:34-35 | a name is found on the prototype exactly when it is one of the seven function names, and the method found carries that name |
| QueryBuilder.Name | src/query.js:34 | every method's name is one of the seven function names on the prototype |
| QueryBuilder.NameLookup | src/query.js:34-39 | looking up a method's name finds that method, so with MethodNamed's contract the lookup and the naming are inverse |
| QueryBuilder.QueryTypesArePresets | src/query.js:28-31 | each exported query type names itself and is a prototype method; metrics and sources dispatch to the two presets |
| QueryBuilder.Extend | src/query.js:62 | among keys the builder does not know, each of the caller's is copied over the target's value and every other target key is kept (the known keys are stated by InitialConfig) |
| QueryBuilder.InitialConfig | src/query.js:50-62 | a new configuration has group null, frequency DAY, dimensionFilters [] and the given dates unless the caller gives them; the caller's keys override; measures, dimension, limit and the other keys are only the caller's |
| QueryBuilder.EndArgument | src/query.js:88 | a given end is used as given; a missing end is replaced by the start, so it stays missing only when both are |
| Values.Message | src/query.js:36 | the query type message ends with the refused name; every refused date gets the same fixed message, the one thrown at line 156 |
| QueryBuilder.ReconcileStepCases | src/query.js:108-111 | the shift branch is taken exactly for two valid moments on the same day with a window; the collapse branch exactly for two valid moments with the end on an earlier day |
| QueryBuilder.Reconciled | src/query.js:108-111 | the end is never moved unless it is the start's own moment being shifted; the start moves only in the shift and collapse branches |
| QueryBuilder.WrapMeasures | src/query.js:116-118 | a measure that is not a list becomes the one-element list of it; a list is sent as its items |
| QueryBuilder.BodyOf | src/query.js:120-138 | a timestamp is "Invalid date" exactly for an invalid moment; dimension and limit are left off exactly when they hold the string 'undefined' |
| QueryBuilder.ReconciledRange | src/query.js:108-112 | a zero-day span with a window moves the start back by the window, and the end too when it is the same moment; an end before the start gives the one-day range at the end; anything else, including an invalid date, is left as it is |
| QueryBuilder.RangeNeverInverted | src/query.js:108-112 | with valid dates and no negative window, the reconciled range never ends before it starts |
| QueryBuilder.NegativeWindowInvertsRange | src/query.js:108-109 | a negative window on a zero-day span puts the start after a separate end |
| QueryBuilder.ReassemblyStable | src/query.js:105-112 | a second assembly leaves the range as the first left it, unless a non-zero window meets a shared start and end, or the window is negative |
| QueryBuilder.ReassemblyMovesSharedRange | src/query.js:105-112 | once start and end are one moment, each further assembly with a non-zero window moves both by the window |
| QueryBuilder.MeasuresWrappedOnce | src/query.js:116-118 | a single measure becomes a one-element list; a list is kept; the stored list is not wrapped again |
| QueryBuilder.BodyTimestamps | src/query.js:120-122 | each body timestamp normalises back to its date, or is "Invalid date" exactly for an invalid moment |
| QueryBuilder.BodyFields | src/query.js:120-138 | adamId is the one-element list of the account; a missing dimension or limit is sent as undefined; only the string 'undefined' leaves a key off |
| QueryBuilder.Query.constructor | src/query.js:50-68 | the builder has the account, no endpoint, no window, the default configuration extended by the caller's, and today in two separate new moments for missing dates |
| QueryBuilder.Query.Initialize | src/query.js:50-68 | re-running the constructor body resets everything except the endpoint |
| QueryBuilder.Query.Metrics | src/query.js:70-76 | the time-series endpoint is chosen and limit and dimension are deleted; nothing else changes |
| QueryBuilder.Query.Sources | src/query.js:78-84 | the sources endpoint is chosen with limit 100 and dimension domainReferrer; nothing else changes |
| QueryBuilder.Query.Date | src/query.js:86-92 | a bad start stores nothing; a bad end leaves the new start stored; otherwise both are stored as moments holding the normalised values, a missing end taking the start's, a moment argument kept as the same object |
| QueryBuilder.Query.Time | src/query.js:94-97 | only the window changes |
| QueryBuilder.Query.Limit | src/query.js:99-102 | only config.limit changes |
| QueryBuilder.Query.NormalizeDates | src/query.js:105-106 | both dates are normalised and stored, the start first; the stored moments are one object exactly when the inputs were one moment |
| QueryBuilder.Query.ReconcileRange | src/query.js:108-112 | the stored moments hold the reconciled range; a collapse makes the start the end's object; a shift changes the start object in place, and without a shift the old start moment keeps its value |
| QueryBuilder.Query.AssembleBody | src/query.js:104-141 | the body is built exactly when both dates normalise; it is the body of the reconciled range and the configuration with measures wrapped; each error leaves the state the code leaves; the caller's start moment is changed only by a shift |
| QueryBuilder.CallOnNew | src/query.js:39 | calling constructor, metrics, sources, time or limit on a new builder gives the state each method leaves (AfterCall: endpoint, window, configuration and today's dates) |
| QueryBuilder.AnalyticsQuery | src/query.js:33-40 | an unknown name is refused with its name; the five methods that cannot throw give a new builder in the state that method leaves (AfterCall); date throws on the missing date; assembleBody gives a body, today's when no dates are given |
| QueryBuilder.MetricsQuery | src/query.js:42-44 | a new builder with the time-series preset |
| QueryBuilder.SourcesQuery | src/query.js:46-48 | a new builder with the sources preset |
| Scenarios.TimestampTexts | src/query.js:114 | 2024-03-01, 2024-03-03 and 2024-03-10 format as 2024-03-01T00:00:000Z, 2024-03-03T00:00:000Z and 2024-03-10T00:00:000Z |
| Scenarios.ExampleTexts | src/query.js:152-154 | the date texts of the examples are 2024-03-01 and 2024-03-10, and a week before 2024-03-10 is 2024-03-03 |
| Scenarios.Dated | src/query.js:86-92 | date with two date strings stores two separate new moments holding those days |
| Scenarios.TrailingWeek | src/query.js:108-109 | date(d, d).time(7, 'days') assembles the week that ends on d |
| Scenarios.InvertedRange | src/query.js:110-111 | an end before the start gives both timestamps the end's date |
| Scenarios.SingleMeasure | src/query.js:116-118 | a single measure is sent as a one-element list |
| Scenarios.UnknownType | src/query.js:35-36 | "bogus" is refused as an unknown query type |
| Scenarios.BadDate | src/query.js:87 | date("not-a-date") fails and leaves the builder's configuration unchanged |
| Scenarios.MetricsByName | src/query.js:33-40 | AnalyticsQuery('metrics') gives a builder with the time-series endpoint and no limit |
| Scenarios.SourcesByName | src/query.js:33-40 | AnalyticsQuery('sources') gives a builder with the sources endpoint and limit 100 |
| Scenarios.CollapseKeepsCallerMoment | src/query.js:110-111 | with the caller's moment as start after the end, both timestamps are the end's and the caller's moment still holds its day |

## Left out

- The request itself: `apiURL` and the HTTP client that sends the body are not
  part of this model.
- Time of day and time zones: a moment holds a calendar day. A `Date` or
  `moment()` with a time of day is modelled as its day, so `diff` is in whole
  days. This is exact for the midnight moments parsed from strings.
- Moments.Shifted: a JavaScript `Date` covers only about 273,790 years either side of 1970 (8.64e15 ms). moment turns a date shifted past that range into an invalid date, which `format` prints as "Invalid date". The model keeps every shifted day valid, for any window, so `RangeNeverInverted` and the shift branch of `ReconciledRange` assume the shifted day stays in that range.
- JavaScript numbers are modelled as unbounded integers. A fractional or NaN
  window amount is not represented.
- Moments.Moment.Subtract: only the units days and weeks are modelled. moment
  accepts many more units (months, years, hours and so on), and `time` passes
  the unit through unchecked.
- DateNormalizer.Normalize: reads the date at the first match of the pattern.
  moment's non-strict parse of the whole string with `YYYY-MM-DD` can read
  digits that come before the match differently.
- DateNormalizer.Normalize: a `Date` is represented by its calendar date. An
  `Invalid Date` is a date that is not on the calendar.
- QueryBuilder.MethodNamed: names that `Query.prototype` inherits from
  `Object.prototype` (`toString`, `valueOf`, `hasOwnProperty` and the like)
  are also functions there. The factory would call them. The model treats
  them as unknown query types.
- QueryBuilder.AnalyticsQuery: for `assembleBody` it states the result only
  when no dates are given, or when the given start is refused. The full
  behaviour is `QueryBuilder.Query.AssembleBody`'s contract.
- A caller might expect the body's `dimension` and `limit` only when they
  are configured. The code compares with the string `'undefined'`, so it always
  copies them. The model follows the code (`QueryBuilder.BodyFields`).
- DateNormalizer.Normalize: the refused value is kept in the error
  (`UnknownDateFormat(input)`) so contracts can name it. The thrown `Error`
  carries only the fixed message (`Values.Message`).
- The error messages are modelled as texts (`Values.Message`); throwing is
  modelled as an error result.

=== FILE: calendar.dfy ===
/** Proleptic Gregorian calendar dates: the canonical date value a moment
    holds once normalised (a calendar day, no time of day). `DayNumber` is the
    reference linear order on days; `AddDays` moves a date by a whole number of
    days one day at a time and is proved to move its day number by exactly that. */
module Calendar {

  datatype Civil = Civil(year: int, month: int, day: int)

  predicate IsLeapYear(y: int) {
    y % 4 == 0 && (y % 100 != 0 || y % 400 == 0)
  }

  function DaysInYear(y: int): int {
    if IsLeapYear(y) then 366 else 365
  }

  function DaysInMonth(y: int, m: int): int
    requires 1 <= m <= 12
  {
    if m == 2 then (if IsLeapYear(y) then 29 else 28)
    else if m == 4 || m == 6 || m == 9 || m == 11 then 30
    else 31
  }

  /** A date that exists on the calendar (month 1..12, day within the month). */
  predicate ValidCivil(c: Civil) {
    1 <= c.month <= 12 && 1 <= c.day <= DaysInMonth(c.year, c.month)
  }

  /** Days from 0000-01-01 to the first of January of year `y` (negative for
      earlier years); the three quotients count the leap years in [0, y). */
  function DaysBeforeYear(y: int): int {
    365 * y + (y + 3) / 4 - (y + 99) / 100 + (y + 399) / 400
  }

  /** Days from the first of January of year `y` to the first of month `m`. */
  function DaysBeforeMonth(y: int, m: int): int
    requires 1 <= m <= 12
  {
    (match m
     case 1 => 0 case 2 => 31 case 3 => 59 case 4 => 90
     case 5 => 120 case 6 => 151 case 7 => 181 case 8 => 212
     case 9 => 243 case 10 => 273 case 11 => 304 case _ => 334)
    + (if m > 2 && IsLeapYear(y) then 1 else 0)
  }

  /** The number of the day counted from 0000-01-01. */
  function DayNumber(c: Civil): int
    requires ValidCivil(c)
  {
    DaysBeforeYear(c.year) + DaysBeforeMonth(c.year, c.month) + c.day - 1
  }

  /** A date that exists, such as the clock's reading of today. */
  type CalendarDate = c: Civil | ValidCivil(c) witness Civil(1970, 1, 1)

  /** Calendar (lexicographic) order on dates. */
  predicate CivilBefore(a: Civil, b: Civil) {
    a.year < b.year
    || (a.year == b.year && a.month < b.month)
    || (a.year == b.year && a.month == b.month && a.day < b.day)
  }

  /** Each leap-year count steps up by one exactly at a multiple of its divisor. */
  lemma QuadrennialStep(y: int)
    ensures (y + 4) / 4 - (y + 3) / 4 == if y % 4 == 0 then 1 else 0
  {
  }

  lemma CenturyStep(y: int)
    ensures (y + 100) / 100 - (y + 99) / 100 == if y % 100 == 0 then 1 else 0
  {
  }

  lemma QuadricentennialStep(y: int)
    ensures (y + 400) / 400 - (y + 399) / 400 == if y % 400 == 0 then 1 else 0
  {
  }

  /** A multiple of 100 is a multiple of 4. */
  lemma CenturyIsQuadrennial(y: int)
    requires y % 100 == 0
    ensures y % 4 == 0
  {
    var k := y / 100;
    assert y == 4 * (25 * k);
  }

  /** A multiple of 400 is a multiple of 100. */
  lemma QuadricentennialIsCentury(y: int)
    requires y % 400 == 0
    ensures y % 100 == 0
  {
    var k := y / 400;
    assert y == 100 * (4 * k);
  }

  /** The three leap-year counts together grow by one exactly across a leap year. */
  lemma LeapDay(y: int)
    ensures ((y + 4) / 4 - (y + 3) / 4) - ((y + 100) / 100 - (y + 99) / 100) + ((y + 400) / 400 - (y + 399) / 400)
      == if IsLeapYear(y) then 1 else 0
  {
    QuadrennialStep(y);
    CenturyStep(y);
    QuadricentennialStep(y);
    if y % 400 == 0 {
      QuadricentennialIsCentury(y);
    }
    if y % 100 == 0 {
      CenturyIsQuadrennial(y);
    }
  }

  /** A year is as long as the gap between its first day and the next year's. */
  lemma YearLength(y: int)
    ensures DaysBeforeYear(y + 1) == DaysBeforeYear(y) + DaysInYear(y)
  {
    LeapDay(y);
  }

  /** Years only move forward: each one is at least 365 days. */
  lemma {:induction false} YearsAscend(a: int, b: int)
    requires a <= b
    ensures DaysBeforeYear(a) + 365 * (b - a) <= DaysBeforeYear(b)
    decreases b - a
  {
    if a < b {
      YearsAscend(a, b - 1);
      YearLength(b - 1);
    }
  }

  /** Within its year a valid date's offset lies in [0, DaysInYear). */
  lemma DayOfYearBounds(c: Civil)
    requires ValidCivil(c)
    ensures 0 <= DaysBeforeMonth(c.year, c.month) + c.day - 1 < DaysInYear(c.year)
  {
  }

  /** The day after a date, on the calendar. */
  function NextDay(c: Civil): (r: Civil)
    requires ValidCivil(c)
    ensures ValidCivil(r) && DayNumber(r) == DayNumber(c) + 1
  {
    if c.day < DaysInMonth(c.year, c.month) then Civil(c.year, c.month, c.day + 1)
    else if c.month < 12 then Civil(c.year, c.month + 1, 1)
    else YearLength(c.year); Civil(c.year + 1, 1, 1)
  }

  /** The day before a date, on the calendar. */
  function PrevDay(c: Civil): (r: Civil)
    requires ValidCivil(c)
    ensures ValidCivil(r) && DayNumber(r) == DayNumber(c) - 1
  {
    if c.day > 1 then Civil(c.year, c.month, c.day - 1)
    else if c.month > 1 then Civil(c.year, c.month - 1, DaysInMonth(c.year, c.month - 1))
    else YearLength(c.year - 1); Civil(c.year - 1, 12, 31)
  }

  /** The date `n` days after `c` (before it when `n` is negative). */
  function AddDays(c: Civil, n: int): (r: Civil)
    requires ValidCivil(c)
    ensures ValidCivil(r) && DayNumber(r) == DayNumber(c) + n
    decreases if n < 0 then -n else n
  {
    if n == 0 then c
    else if n > 0 then AddDays(NextDay(c), n - 1)
    else AddDays(PrevDay(c), n + 1)
  }

  /** Every day of an earlier year comes before every day of a later one. */
  lemma YearsApart(a: Civil, b: Civil)
    requires ValidCivil(a) && ValidCivil(b) && a.year < b.year
    ensures DayNumber(a) < DayNumber(b)
  {
    DayOfYearBounds(a);
    DayOfYearBounds(b);
    YearsAscend(a.year + 1, b.year);
    YearLength(a.year);
  }

  /** Within a year, every day of an earlier month comes first. */
  lemma MonthsApart(a: Civil, b: Civil)
    requires ValidCivil(a) && ValidCivil(b) && a.year == b.year && a.month < b.month
    ensures DayNumber(a) < DayNumber(b)
  {
  }

  /** Day numbers order dates exactly as the calendar does. */
  lemma DayNumberOrder(a: Civil, b: Civil)
    requires ValidCivil(a) && ValidCivil(b)
    ensures CivilBefore(a, b) <==> DayNumber(a) < DayNumber(b)
  {
    if a.year < b.year {
      YearsApart(a, b);
    } else if b.year < a.year {
      YearsApart(b, a);
    } else if a.month < b.month {
      MonthsApart(a, b);
    } else if b.month < a.month {
      MonthsApart(b, a);
    }
  }

  /** Two valid dates with the same day number are the same date. */
  lemma DayNumberInjective(a: Civil, b: Civil)
    requires ValidCivil(a) && ValidCivil(b)
    ensures DayNumber(a) == DayNumber(b) <==> a == b
  {
    DayNumberOrder(a, b);
    DayNumberOrder(b, a);
  }
}

=== FILE: digits.dfy ===
/** Decimal text: rendering numbers with moment's zero-fill and reading runs of
    ASCII digits back. */
module Digits {

  predicate IsDigit(ch: char) {
    '0' <= ch <= '9'
  }

  predicate AllDigits(s: string) {
    forall i :: 0 <= i < |s| ==> IsDigit(s[i])
  }

  function DigitChar(d: int): (ch: char)
    requires 0 <= d <= 9
    ensures IsDigit(ch) && ch as int - '0' as int == d
  {
    ('0' as int + d) as char
  }

  /** The number a run of digits denotes, read left to right. */
  function ValueOf(s: string): nat
    requires AllDigits(s)
  {
    if s == [] then 0
    else ValueOf(s[..|s| - 1]) * 10 + (s[|s| - 1] as int - '0' as int)
  }

  function Pow10(w: nat): nat {
    if w == 0 then 1 else 10 * Pow10(w - 1)
  }

  /** The shortest decimal spelling of `n`. */
  function Decimal(n: nat): (s: string)
    ensures 0 < |s| && AllDigits(s)
    decreases n
  {
    if n < 10 then [DigitChar(n)] else Decimal(n / 10) + [DigitChar(n % 10)]
  }

  /** `s` with zeros prepended up to `width` characters. */
  function PadLeft(s: string, width: nat): (r: string)
    ensures |r| == if |s| >= width then |s| else width
    ensures AllDigits(s) ==> AllDigits(r)
    decreases width - |s|
  {
    if |s| >= width then s else PadLeft(['0'] + s, width)
  }

  /** moment's zeroFill without a forced sign: '-' for negatives, then the
      magnitude padded with zeros to at least `width` digits. */
  function ZeroFill(n: int, width: nat): (r: string)
    ensures 0 < |r| && (r[0] == '-' <==> n < 0)
    ensures n >= 0 ==> |r| >= width && AllDigits(r)
  {
    (if n < 0 then "-" else "") + PadLeft(Decimal(if n < 0 then -n else n), width)
  }

  lemma {:induction false} DecimalRoundTrip(n: nat)
    ensures ValueOf(Decimal(n)) == n
    decreases n
  {
    if n >= 10 {
      DecimalRoundTrip(n / 10);
      var s := Decimal(n / 10) + [DigitChar(n % 10)];
      assert s[..|s| - 1] == Decimal(n / 10);
    }
  }

  /** A leading zero does not change the value. */
  lemma {:induction false} LeadingZero(s: string)
    requires AllDigits(s)
    ensures AllDigits(['0'] + s) && ValueOf(['0'] + s) == ValueOf(s)
    decreases |s|
  {
    var t := ['0'] + s;
    if s != [] {
      LeadingZero(s[..|s| - 1]);
      assert t[..|t| - 1] == ['0'] + s[..|s| - 1];
    } else {
      assert t[..|t| - 1] == [];
    }
  }

  lemma {:induction false} PadLeftValue(s: string, width: nat)
    requires AllDigits(s)
    ensures ValueOf(PadLeft(s, width)) == ValueOf(s)
    decreases width - |s|
  {
    if |s| < width {
      LeadingZero(s);
      PadLeftValue(['0'] + s, width);
    }
  }

  lemma {:induction false} DecimalLength(n: nat, width: nat)
    requires 1 <= width && n < Pow10(width)
    ensures |Decimal(n)| <= width
    decreases n
  {
    if n >= 10 {
      DecimalLength(n / 10, width - 1);
    }
  }

  /** A number below 100 zero-fills to its tens and units digits. */
  lemma ZeroFillTwo(n: int)
    requires 0 <= n <= 99
    ensures ZeroFill(n, 2) == [DigitChar(n / 10), DigitChar(n % 10)]
  {
    if n < 10 {
      assert PadLeft(Decimal(n), 2) == PadLeft(['0', DigitChar(n)], 2);
    } else {
      assert Decimal(n) == Decimal(n / 10) + [DigitChar(n % 10)];
    }
  }

  /** A four-digit number zero-fills to its four digits. */
  lemma ZeroFillFour(n: int)
    requires 1000 <= n <= 9999
    ensures ZeroFill(n, 4) == [DigitChar(n / 1000), DigitChar(n / 100 % 10), DigitChar(n / 10 % 10), DigitChar(n % 10)]
  {
    assert Decimal(n / 1000) == [DigitChar(n / 1000)];
    assert Decimal(n / 100) == Decimal(n / 1000) + [DigitChar(n / 100 % 10)];
    assert Decimal(n / 10) == Decimal(n / 100) + [DigitChar(n / 10 % 10)];
    assert Decimal(n) == Decimal(n / 10) + [DigitChar(n % 10)];
  }

  /** `k` digits denote a number below 10^k. */
  lemma {:induction false} ValueBound(t: string)
    requires AllDigits(t)
    ensures ValueOf(t) < Pow10(|t|)
    decreases |t|
  {
    if t != [] {
      ValueBound(t[..|t| - 1]);
    }
  }

  /** Two runs of digits of the same length that denote the same number are
      the same text. */
  lemma {:induction false} ValueInjective(a: string, b: string)
    requires AllDigits(a) && AllDigits(b) && |a| == |b|
    requires ValueOf(a) == ValueOf(b)
    ensures a == b
    decreases |a|
  {
    if a != [] {
      var n := ValueOf(a);
      var da, db := a[|a| - 1] as int - '0' as int, b[|b| - 1] as int - '0' as int;
      assert da == n % 10 && db == n % 10;
      ValueInjective(a[..|a| - 1], b[..|b| - 1]);
      assert a == a[..|a| - 1] + [a[|a| - 1]];
      assert b == b[..|b| - 1] + [b[|b| - 1]];
    }
  }

  /** Zero-filling the number a run of digits denotes to the run's length
      gives the run back. */
  lemma DigitsZeroFill(t: string)
    requires 1 <= |t| && AllDigits(t)
    ensures ZeroFill(ValueOf(t), |t|) == t
  {
    ValueBound(t);
    ZeroFillRoundTrip(ValueOf(t), |t|);
    ValueInjective(ZeroFill(ValueOf(t), |t|), t);
  }

  /** A non-negative number below 10^width zero-fills to exactly `width`
      digits that read back as the number. */
  lemma ZeroFillRoundTrip(n: int, width: nat)
    requires 1 <= width && 0 <= n < Pow10(width)
    ensures |ZeroFill(n, width)| == width && AllDigits(ZeroFill(n, width))
    ensures ValueOf(ZeroFill(n, width)) == n
  {
    DecimalLength(n, width);
    DecimalRoundTrip(n);
    PadLeftValue(Decimal(n), width);
    assert ZeroFill(n, width) == PadLeft(Decimal(n), width);
  }
}

=== FILE: moments.dfy ===
/** The part of moment.js the query builder relies on: a mutable date object,
    its `subtract`, its day `diff` and its `format` with the builder's
    timestamp pattern. */
module Moments {
  import opened Wrappers
  import opened Calendar
  import opened Digits

  /** What a moment holds: a calendar day, or moment's "invalid date". */
  datatype MomentValue = Day(date: Civil) | Invalid

  /** A moment's value; a day it holds is always on the calendar. */
  type Stamp = v: MomentValue | v.Day? ==> ValidCivil(v.date) witness Invalid

  /** The time units a relative window may use, as whole days. */
  datatype Unit = Days | Weeks

  function UnitDays(u: Unit): int {
    match u
    case Days => 1
    case Weeks => 7
  }

  /** The value `n` days later (earlier when `n` is negative); an invalid
      date stays invalid. */
  function Shifted(s: Stamp, n: int): (r: Stamp)
    ensures r.Day? <==> s.Day?
    ensures s.Day? ==> DayNumber(r.date) == DayNumber(s.date) + n
  {
    match s
    case Day(c) => Day(AddDays(c, n))
    case Invalid => Invalid
  }

  /** `later.diff(earlier)` in whole days; None is NaN (an invalid operand),
      which every comparison treats as false. */
  function DiffDays(later: Stamp, earlier: Stamp): (r: Option<int>)
    ensures r.Some? <==> later.Day? && earlier.Day?
    ensures r.Some? ==> (r.value < 0 <==> CivilBefore(later.date, earlier.date))
    ensures r.Some? ==> (r.value == 0 <==> later.date == earlier.date)
  {
    if later.Day? && earlier.Day? then
      DayNumberOrder(later.date, earlier.date);
      DayNumberInjective(later.date, earlier.date);
      Some(DayNumber(later.date) - DayNumber(earlier.date))
    else None
  }

  /** The literal tail of the builder's format 'YYYY-MM-DD[T00:00:000Z]'. */
  const TimestampSuffix: string := "T00:00:000Z"

  /** What moment's `format` prints for an invalid date. */
  const InvalidDateText: string := "Invalid date"

  /** `format('YYYY-MM-DD[T00:00:000Z]')`. */
  function Format(s: Stamp): (r: string)
    ensures r == InvalidDateText <==> s.Invalid?
  {
    match s
    case Invalid => InvalidDateText
    case Day(c) =>
      var r := ZeroFill(c.year, 4) + "-" + ZeroFill(c.month, 2) + "-" + ZeroFill(c.day, 2) + TimestampSuffix;
      assert r[|r| - 1] == 'Z';
      r
  }

  /** A moment.js object: mutable, shared by reference. */
  class Moment {
    var stamp: Stamp

    constructor (s: Stamp)
      ensures stamp == s
    {
      stamp := s;
    }

    /** `subtract(amount, unit)`: moves this very object back in time. */
    method Subtract(amount: int, unit: Unit)
      modifies this
      ensures stamp == Shifted(old(stamp), -(amount * UnitDays(unit)))
    {
      stamp := Shifted(stamp, -(amount * UnitDays(unit)));
    }
  }
}

=== FILE: normalizer.dfy ===
/** The date normaliser `toMomentObject`: a moment is returned as it is, a
    `Date` is wrapped in a new moment, a string containing the digit pattern
    NNNN-NN-NN is parsed as year-month-day, and anything else is an error. */
module DateNormalizer {
  import opened Wrappers
  import opened Calendar
  import opened Digits
  import opened Moments
  import opened Values

  /** The regular expression /([0-9]{4})-([0-9]{2})-([0-9]{2})/ matches at `i`. */
  predicate DatePatternAt(s: string, i: int) {
    0 <= i && i + 10 <= |s|
    && IsDigit(s[i]) && IsDigit(s[i + 1]) && IsDigit(s[i + 2]) && IsDigit(s[i + 3])
    && s[i + 4] == '-'
    && IsDigit(s[i + 5]) && IsDigit(s[i + 6])
    && s[i + 7] == '-'
    && IsDigit(s[i + 8]) && IsDigit(s[i + 9])
  }

  /** The unanchored regular expression matches somewhere in `s`. */
  predicate MatchesDatePattern(s: string) {
    exists i :: 0 <= i < |s| && DatePatternAt(s, i)
  }

  /** The first position at or after `from` where the pattern matches. */
  function FindDatePattern(s: string, from: nat): (r: Option<nat>)
    ensures r.Some? ==> from <= r.value && DatePatternAt(s, r.value)
    ensures r.Some? ==> forall j :: from <= j < r.value ==> !DatePatternAt(s, j)
    ensures r.None? ==> forall j :: from <= j ==> !DatePatternAt(s, j)
    decreases |s| - from
  {
    if from + 10 > |s| then None
    else if DatePatternAt(s, from) then Some(from)
    else FindDatePattern(s, from + 1)
  }

  /** The date the matched year, month and day digits at `i` name; moment
      turns an out-of-range month or day into an invalid date. */
  function ParseDateAt(s: string, i: nat): (r: Stamp)
    requires DatePatternAt(s, i)
    ensures r.Day? ==> r.date == Civil(ValueOf(s[i..i + 4]), ValueOf(s[i + 5..i + 7]), ValueOf(s[i + 8..i + 10]))
    ensures r.Invalid? <==> !ValidCivil(Civil(ValueOf(s[i..i + 4]), ValueOf(s[i + 5..i + 7]), ValueOf(s[i + 8..i + 10])))
  {
    var c := Civil(ValueOf(s[i..i + 4]), ValueOf(s[i + 5..i + 7]), ValueOf(s[i + 8..i + 10]));
    if ValidCivil(c) then Day(c) else Invalid
  }

  /** The other direction of the round trip: a date parsed from the matched
      text formats back to exactly that text. */
  lemma ParsedDateFormatsBack(s: string, i: nat)
    requires DatePatternAt(s, i)
    ensures ParseDateAt(s, i).Day? ==> Format(ParseDateAt(s, i))[..10] == s[i..i + 10]
  {
    var r := ParseDateAt(s, i);
    if r.Day? {
      var y, m, d := s[i..i + 4], s[i + 5..i + 7], s[i + 8..i + 10];
      DigitsZeroFill(y);
      DigitsZeroFill(m);
      DigitsZeroFill(d);
      assert Format(r) == y + "-" + m + "-" + d + TimestampSuffix;
      MatchedText(s, i);
      TextPrefix(y, m, d, TimestampSuffix);
    }
  }

  /** The ten matched characters are the three digit groups and two dashes. */
  lemma MatchedText(s: string, i: nat)
    requires DatePatternAt(s, i)
    ensures s[i..i + 10] == s[i..i + 4] + "-" + s[i + 5..i + 7] + "-" + s[i + 8..i + 10]
  {
    assert s[i..i + 10] == s[i..i + 4] + [s[i + 4]] + s[i + 5..i + 7] + [s[i + 7]] + s[i + 8..i + 10];
  }

  /** The first ten characters of a formatted day are its date part. */
  lemma TextPrefix(y: string, m: string, d: string, tail: string)
    requires |y| == 4 && |m| == 2 && |d| == 2
    ensures (y + "-" + m + "-" + d + tail)[..10] == y + "-" + m + "-" + d
  {
  }

  /** The moment value `toMomentObject(v)` yields, or the error it throws. */
  function Normalize(v: Value): (r: Result<Stamp, Error>)
    reads Refs(v)
    ensures v.MomentRef? ==> r == Ok(v.m.stamp)
    ensures r.Err? <==> !(v.MomentRef? || v.JsDate? || (v.Str? && MatchesDatePattern(v.s)))
    ensures r.Err? ==> r.error == UnknownDateFormat(v)
  {
    match v
    case MomentRef(m) => Ok(m.stamp)
    case JsDate(c) => Ok(if ValidCivil(c) then Day(c) else Invalid)
    case Str(s) =>
      (match FindDatePattern(s, 0)
       case Some(i) => Ok(ParseDateAt(s, i))
       case None => Err(UnknownDateFormat(v)))
    case _ => Err(UnknownDateFormat(v))
  }

  /** `toMomentObject`: the same object for a moment, a new one otherwise. */
  method ToMomentObject(v: Value) returns (r: Result<Moment, Error>)
    ensures r.Err? <==> Normalize(v).Err?
    ensures r.Err? ==> r.error == UnknownDateFormat(v)
    ensures r.Ok? ==> r.value.stamp == Normalize(v).value
    ensures v.MomentRef? ==> r == Ok(v.m)
    ensures r.Ok? && !v.MomentRef? ==> fresh(r.value)
  {
    var n := Normalize(v);
    if v.MomentRef? {
      r := Ok(v.m);
    } else if n.Ok? {
      var m := new Moment(n.value);
      r := Ok(m);
    } else {
      r := Err(n.error);
    }
  }

  /** A string without digits never matches the pattern. */
  lemma NoDigitsNoMatch(s: string)
    requires forall k :: 0 <= k < |s| ==> !IsDigit(s[k])
    ensures !MatchesDatePattern(s)
  {
    forall i | 0 <= i < |s| ensures !DatePatternAt(s, i) {
      assert !IsDigit(s[i]);
    }
  }

  /** The formatted timestamp of a day with a four-digit year reads back as
      that day. */
  lemma FormatRoundTrip(s: Stamp)
    requires s.Day? && 0 <= s.date.year <= 9999
    ensures |Format(s)| == 21 && DatePatternAt(Format(s), 0) && Format(s)[10..] == TimestampSuffix
    ensures Normalize(Str(Format(s))) == Ok(s)
  {
    var c := s.date;
    assert Pow10(2) == 100 && Pow10(4) == 10000;
    ZeroFillRoundTrip(c.year, 4);
    ZeroFillRoundTrip(c.month, 2);
    ZeroFillRoundTrip(c.day, 2);
    var y, m, d := ZeroFill(c.year, 4), ZeroFill(c.month, 2), ZeroFill(c.day, 2);
    var t := Format(s);
    assert t == y + "-" + m + "-" + d + TimestampSuffix;
    assert t[0..4] == y && t[5..7] == m && t[8..10] == d;
    assert DatePatternAt(t, 0);
    assert FindDatePattern(t, 0) == Some(0);
  }

  /** Only the first ten characters decide a match at the start and the date
      read there. */
  lemma SamePrefixSameDate(p: string, t: string)
    requires DatePatternAt(t, 0) && |p| >= 10 && p[..10] == t[..10]
    ensures DatePatternAt(p, 0) && ParseDateAt(p, 0) == ParseDateAt(t, 0)
  {
    assert forall k :: 0 <= k < 10 ==> p[k] == t[..10][k] == t[k];
    assert p[0..4] == t[0..4] && p[5..7] == t[5..7] && p[8..10] == t[8..10];
  }

  /** The date part of a formatted timestamp (a day with a four-digit year)
      also reads back as that day. */
  lemma DatePrefixRoundTrip(s: Stamp)
    requires s.Day? && 0 <= s.date.year <= 9999
    ensures Normalize(Str(Format(s)[..10])) == Ok(s)
  {
    FormatRoundTrip(s);
    var t := Format(s);
    LeadingDateParsed(t);
    SamePrefixSameDate(t[..10], t);
    LeadingDateParsed(t[..10]);
  }

  /** An invalid moment's text is not a date the normaliser accepts. */
  lemma InvalidFormatRejected()
    ensures Normalize(Str(Format(Invalid))).Err?
  {
    NoDigitsNoMatch(InvalidDateText);
  }

  /** The three accepted shapes naming the same day normalise alike. */
  lemma ShapeIndependence(c: Civil, m: Moment)
    requires ValidCivil(c) && 0 <= c.year <= 9999 && m.stamp == Day(c)
    ensures Normalize(JsDate(c)) == Ok(Day(c))
    ensures Normalize(Str(Format(Day(c)))) == Ok(Day(c))
    ensures Normalize(MomentRef(m)) == Ok(Day(c))
  {
    FormatRoundTrip(Day(c));
  }

  lemma NotADateRejected()
    ensures Normalize(Str("not-a-date")) == Err(UnknownDateFormat(Str("not-a-date")))
  {
    NoDigitsNoMatch("not-a-date");
  }

  /** A string that starts with the pattern is parsed from its first
      character. */
  lemma LeadingDateParsed(t: string)
    requires DatePatternAt(t, 0)
    ensures Normalize(Str(t)) == Ok(ParseDateAt(t, 0))
  {
    assert FindDatePattern(t, 0) == Some(0);
  }
}

=== FILE: query.dfy ===
/** The analytics query builder: a `Query` object holding a loosely typed
    configuration, the two presets that choose an endpoint, the fluent setters,
    and `assembleBody`, which normalises the dates, reconciles the range and
    produces the request body. */
module QueryBuilder {
  import opened Wrappers
  import opened Calendar
  import opened Moments
  import opened Values
  import opened DateNormalizer

  // The constant tables the module exports.
  const Frequency: map<string, string> :=
    map["day" := "DAY", "week" := "WEEK", "month" := "MONTH"]
  const Measures: map<string, string> :=
    map["installs" := "installs", "sessions" := "sessions", "pageViews" := "pageViewCount",
        "activeDevices" := "activeDevices", "crashes" := "crashes",
        "payingUsers" := "payingUsers", "units" := "units", "sales" := "sales"]
  const Dimension: map<string, string> :=
    map["campaigns" := "campaignId", "websites" := "domainReferrer"]
  const QueryType: map<string, string> :=
    map["sources" := "sources", "metrics" := "metrics"]

  const TimeSeriesEndpoint: string := "/data/time-series"
  const SourcesEndpoint: string := "/data/sources/list"
  const SourcesLimit: int := 100

  /** The functions `Query.prototype` holds: the methods below and
      `constructor`, which is `Query` itself. */
  datatype QueryMethod =
    | ConstructorMethod | MetricsMethod | SourcesMethod | DateMethod
    | TimeMethod | LimitMethod | AssembleBodyMethod

  /** The property names under which `Query.prototype` holds a function. */
  const QueryMethods: set<string> :=
    {"constructor", "metrics", "sources", "date", "time", "limit", "assembleBody"}

  /** The property name under which the prototype holds each method. */
  function Name(m: QueryMethod): (name: string)
    ensures name in QueryMethods
  {
    match m
    case ConstructorMethod => "constructor"
    case MetricsMethod => "metrics"
    case SourcesMethod => "sources"
    case DateMethod => "date"
    case TimeMethod => "time"
    case LimitMethod => "limit"
    case AssembleBodyMethod => "assembleBody"
  }

  /** The prototype lookup `Query.prototype[name]`, when it is a function:
      the inverse of `Name`. */
  function MethodNamed(name: string): (r: Option<QueryMethod>)
    ensures r.Some? <==> name in QueryMethods
    ensures r.Some? ==> Name(r.value) == name
  {
    if name == "constructor" then Some(ConstructorMethod)
    else if name == "metrics" then Some(MetricsMethod)
    else if name == "sources" then Some(SourcesMethod)
    else if name == "date" then Some(DateMethod)
    else if name == "time" then Some(TimeMethod)
    else if name == "limit" then Some(LimitMethod)
    else if name == "assembleBody" then Some(AssembleBodyMethod)
    else None
  }

  /** Looking up a method's own name finds that method. */
  lemma NameLookup(m: QueryMethod)
    ensures MethodNamed(Name(m)) == Some(m)
  {
  }

  /** The two query types the module exports are the two presets the
      factory dispatches to. */
  lemma QueryTypesArePresets()
    ensures forall name :: name in QueryType ==> QueryType[name] == name && name in QueryMethods
    ensures MethodNamed(QueryType["metrics"]) == Some(MetricsMethod)
    ensures MethodNamed(QueryType["sources"]) == Some(SourcesMethod)
  {
  }

  /** A relative window `time(amount, unit)`. */
  datatype Window = Window(amount: int, unit: Unit)

  function WindowDays(w: Window): int {
    w.amount * UnitDays(w.unit)
  }

  /** The keys the builder reads or writes by name. */
  const KnownKeys: set<string> :=
    {"start", "end", "group", "frequency", "dimensionFilters", "measures", "dimension", "limit"}

  /** The keys of a configuration object other than the known ones. */
  type OtherFields = m: map<string, Value> | forall k :: k in m ==> k !in KnownKeys witness map[]

  /** A configuration object: one slot per known key, None where the object
      does not have the key, and the remaining keys as they came. */
  datatype Config = Config(
    start: Option<Value>,
    end: Option<Value>,
    group: Option<Value>,
    frequency: Option<Value>,
    dimensionFilters: Option<Value>,
    measures: Option<Value>,
    dimension: Option<Value>,
    limit: Option<Value>,
    others: OtherFields)

  /** The empty object `{}` (also what an omitted `config` contributes). */
  const NoOptions: Config := Config(None, None, None, None, None, None, None, None, map[])

  /** A property read: a missing key reads as `undefined`. */
  function Read(field: Option<Value>): Value {
    if field.Some? then field.value else Undefined
  }

  function Override(target: Option<Value>, source: Option<Value>): Option<Value> {
    if source.Some? then source else target
  }

  /** `_.extend(target, source)`: every key of `source` is copied over. */
  function Extend(target: Config, source: Config): (r: Config)
    ensures forall k :: k in source.others ==> k in r.others && r.others[k] == source.others[k]
    ensures forall k :: k in target.others && k !in source.others ==> k in r.others && r.others[k] == target.others[k]
  {
    Config(
      Override(target.start, source.start),
      Override(target.end, source.end),
      Override(target.group, source.group),
      Override(target.frequency, source.frequency),
      Override(target.dimensionFilters, source.dimensionFilters),
      Override(target.measures, source.measures),
      Override(target.dimension, source.dimension),
      Override(target.limit, source.limit),
      target.others + source.others)
  }

  /** The configuration a new builder starts from. */
  function DefaultConfig(start: Value, end: Value): Config {
    Config(Some(start), Some(end), Some(Null), Some(Str("DAY")), Some(List([])), None, None, None, map[])
  }

  /** A new builder's configuration: the defaults `group = null`,
      `frequency = 'DAY'`, `dimensionFilters = []` and today's dates, every
      key the caller gives overriding the default of the same name. */
  function InitialConfig(start: Value, end: Value, options: Config): (c: Config)
    ensures c.start == Some(if options.start.Some? then options.start.value else start)
    ensures c.end == Some(if options.end.Some? then options.end.value else end)
    ensures c.group == Some(if options.group.Some? then options.group.value else Null)
    ensures c.frequency == Some(if options.frequency.Some? then options.frequency.value else Str("DAY"))
    ensures c.dimensionFilters == Some(if options.dimensionFilters.Some? then options.dimensionFilters.value else List([]))
    ensures c.measures == options.measures && c.dimension == options.dimension && c.limit == options.limit
    ensures c.others == options.others
  {
    Extend(DefaultConfig(start, end), options)
  }

  /** The dates a new builder gets when the caller gives none: today, each in
      a moment of its own. */
  ghost predicate DefaultDates(config: Config, options: Config, now: CalendarDate)
    reads Refs(Read(config.start)), Refs(Read(config.end))
  {
    && (options.start.None? ==> Read(config.start).MomentRef? && Read(config.start).m.stamp == Day(now))
    && (options.end.None? ==> Read(config.end).MomentRef? && Read(config.end).m.stamp == Day(now))
    && (options.start.None? && options.end.None? ==> Read(config.start) != Read(config.end))
  }

  /** `date(start, end)` uses `start` for a missing `end`. */
  function EndArgument(start: Value, end: Value): (r: Value)
    ensures !end.Undefined? ==> r == end
    ensures end.Undefined? ==> r == start
    ensures r.Undefined? <==> start.Undefined? && end.Undefined?
  {
    if end.Undefined? then start else end
  }

  /** The request body. `dimension` and `limit` are None when the key is
      left off the body. */
  datatype Body = Body(
    startTime: string,
    endTime: string,
    group: Value,
    frequency: Value,
    adamId: seq<Value>,
    dimensionFilters: Value,
    measures: seq<Value>,
    dimension: Option<Value>,
    limit: Option<Value>)

  /** Which branch of the range reconciliation applies. */
  datatype Step = ShiftStart | Collapse | Keep

  /** A start and an end moment value. */
  datatype Range = Range(start: Stamp, end: Stamp)

  function ReconcileStep(start: Stamp, end: Stamp, window: Option<Window>): (r: Step)
  {
    var span := DiffDays(end, start);
    if span == Some(0) && window.Some? then ShiftStart
    else if span.Some? && span.value < 0 then Collapse
    else Keep
  }

  /** Which branch applies, in calendar terms: the shift needs two valid
      moments on the same day and a window; the collapse needs two valid
      moments with the end on an earlier day. */
  lemma ReconcileStepCases(start: Stamp, end: Stamp, window: Option<Window>)
    ensures ReconcileStep(start, end, window) == ShiftStart <==>
      start.Day? && end.Day? && start.date == end.date && window.Some?
    ensures ReconcileStep(start, end, window) == Collapse <==>
      start.Day? && end.Day? && CivilBefore(end.date, start.date)
  {
  }

  /** The range after reconciliation. `shared` says the start and end are one
      moment object, which the in-place shift then moves as a whole. */
  function Reconciled(start: Stamp, end: Stamp, window: Option<Window>, shared: bool): (r: Range)
    requires shared ==> start == end
    ensures r.end != end ==> shared && ReconcileStep(start, end, window) == ShiftStart
    ensures r.start != start ==> ReconcileStep(start, end, window) != Keep
  {
    match ReconcileStep(start, end, window)
    case ShiftStart =>
      var s := Shifted(start, -WindowDays(window.value));
      Range(s, if shared then s else end)
    case Collapse => Range(end, end)
    case Keep => Range(start, end)
  }

  /** What reconciliation does: a zero-day span with a window moves the start
      back by the window (the end too when it is the same moment); an end
      before the start makes the range that one day; anything else, and any
      invalid date, leaves the range as it is. */
  lemma ReconciledRange(start: Stamp, end: Stamp, window: Option<Window>, shared: bool)
    requires shared ==> start == end
    ensures var r := Reconciled(start, end, window, shared);
      start.Day? && end.Day? && start.date == end.date && window.Some? ==>
        && r.start.Day?
        && DayNumber(r.start.date) == DayNumber(end.date) - WindowDays(window.value)
        && r.end == (if shared then r.start else end)
    ensures start.Day? && end.Day? && CivilBefore(end.date, start.date) ==>
      Reconciled(start, end, window, shared) == Range(end, end)
    ensures !(start.Day? && end.Day? && ((start.date == end.date && window.Some?) || CivilBefore(end.date, start.date))) ==>
      Reconciled(start, end, window, shared) == Range(start, end)
    ensures shared || ReconcileStep(start, end, window) == Collapse ==>
      Reconciled(start, end, window, shared).start == Reconciled(start, end, window, shared).end
  {
    if start.Day? && end.Day? {
      DayNumberInjective(start.date, end.date);
    }
  }

  /** `measures` as a list: a list as it is, anything else wrapped once. */
  function WrapMeasures(v: Value): (r: seq<Value>)
    ensures !v.List? ==> r == [v]
    ensures v.List? ==> r == v.items
  {
    if v.List? then v.items else [v]
  }

  /** The stored list is not wrapped again: a second assembly sends the same
      measures. A single measure is sent as the one element of the list. */
  lemma MeasuresWrappedOnce(v: Value)
    ensures WrapMeasures(List(WrapMeasures(v))) == WrapMeasures(v)
    ensures !v.List? ==> WrapMeasures(v) == [v]
    ensures v.List? ==> WrapMeasures(v) == v.items
  {
  }

  /** With a window of no negative length the reconciled range never ends
      before it starts. */
  lemma RangeNeverInverted(start: Stamp, end: Stamp, window: Option<Window>, shared: bool)
    requires shared ==> start == end
    requires start.Day? && end.Day?
    requires window.Some? ==> WindowDays(window.value) >= 0
    ensures var r := Reconciled(start, end, window, shared);
      r.start.Day? && r.end.Day? && !CivilBefore(r.end.date, r.start.date)
  {
    var r := Reconciled(start, end, window, shared);
    ReconciledRange(start, end, window, shared);
    DayNumberOrder(r.end.date, r.start.date);
    DayNumberOrder(end.date, start.date);
    DayNumberInjective(end.date, start.date);
  }

  /** A negative window on a zero-day span moves the start past a separate
      end moment: the range comes out inverted. */
  lemma NegativeWindowInvertsRange(day: Stamp, window: Window)
    requires day.Day? && WindowDays(window) < 0
    ensures var r := Reconciled(day, day, Some(window), false);
      r.start.Day? && r.end == day && CivilBefore(r.end.date, r.start.date)
  {
    var r := Reconciled(day, day, Some(window), false);
    ReconciledRange(day, day, Some(window), false);
    DayNumberOrder(r.end.date, r.start.date);
  }

  /** Assembling a second time reconciles the stored range again, now with
      the start and end shared if they were, or if the first pass collapsed
      them. Without a window, with a zero window, or with a positive window
      on unshared moments, the second pass changes nothing. */
  lemma ReassemblyStable(start: Stamp, end: Stamp, window: Option<Window>, shared: bool)
    requires shared ==> start == end
    ensures var first := Reconciled(start, end, window, shared);
      var sharedAfter := shared || ReconcileStep(start, end, window) == Collapse;
      window.None? || WindowDays(window.value) == 0 || (WindowDays(window.value) > 0 && !sharedAfter) ==>
        Reconciled(first.start, first.end, window, sharedAfter) == first
  {
    var first := Reconciled(start, end, window, shared);
    var sharedAfter := shared || ReconcileStep(start, end, window) == Collapse;
    ReconciledRange(start, end, window, shared);
    ReconciledRange(first.start, first.end, window, sharedAfter);
    if start.Day? && end.Day? {
      DayNumberOrder(first.end.date, first.start.date);
      DayNumberInjective(first.end.date, first.start.date);
      DayNumberInjective(end.date, start.date);
    }
  }

  /** Once the start and end are one moment (shared by the caller or by a
      collapse), every further assembly with a non-zero window moves both
      by the window again. */
  lemma ReassemblyMovesSharedRange(start: Stamp, end: Stamp, window: Window, shared: bool)
    requires shared ==> start == end
    requires start.Day? && end.Day? && WindowDays(window) != 0
    requires shared || ReconcileStep(start, end, Some(window)) == Collapse
    ensures var first := Reconciled(start, end, Some(window), shared);
      var second := Reconciled(first.start, first.end, Some(window), true);
      && second.start == second.end
      && DayNumber(second.start.date) == DayNumber(first.start.date) - WindowDays(window)
  {
    var first := Reconciled(start, end, Some(window), shared);
    ReconciledRange(start, end, Some(window), shared);
    ReconciledRange(first.start, first.end, Some(window), true);
    DayNumberInjective(first.end.date, first.start.date);
  }

  /** The body built from the reconciled dates and the configuration. The
      guards compare with the string 'undefined', so `dimension` and `limit`
      are copied unless they hold that very string. */
  function BodyOf(start: Stamp, end: Stamp, config: Config, adamId: Value): (b: Body)
    ensures b.startTime == InvalidDateText <==> start.Invalid?
    ensures b.endTime == InvalidDateText <==> end.Invalid?
    ensures b.dimension.None? <==> config.dimension == Some(Str("undefined"))
    ensures b.limit.None? <==> config.limit == Some(Str("undefined"))
  {
    Body(
      Format(start),
      Format(end),
      Read(config.group),
      Read(config.frequency),
      [adamId],
      Read(config.dimensionFilters),
      WrapMeasures(Read(config.measures)),
      if Read(config.dimension) != Str("undefined") then Some(Read(config.dimension)) else None,
      if Read(config.limit) != Str("undefined") then Some(Read(config.limit)) else None)
  }

  /** Each timestamp of the body reads back as its date (a day with a
      four-digit year) or is moment's "Invalid date". */
  lemma BodyTimestamps(start: Stamp, end: Stamp, config: Config, adamId: Value)
    ensures var b := BodyOf(start, end, config, adamId);
      && (start.Day? && 0 <= start.date.year <= 9999 ==> Normalize(Str(b.startTime)) == Ok(start))
      && (end.Day? && 0 <= end.date.year <= 9999 ==> Normalize(Str(b.endTime)) == Ok(end))
      && (start.Invalid? <==> b.startTime == InvalidDateText)
      && (end.Invalid? <==> b.endTime == InvalidDateText)
  {
    if start.Day? && 0 <= start.date.year <= 9999 {
      FormatRoundTrip(start);
    }
    if end.Day? && 0 <= end.date.year <= 9999 {
      FormatRoundTrip(end);
    }
  }

  /** The account is the one element of `adamId`; a missing `dimension` or
      `limit` is sent as undefined, and only the string 'undefined' leaves
      the key off. */
  lemma BodyFields(start: Stamp, end: Stamp, config: Config, adamId: Value)
    ensures var b := BodyOf(start, end, config, adamId);
      && b.adamId == [adamId]
      && (config.dimension.None? ==> b.dimension == Some(Undefined))
      && (config.limit.None? ==> b.limit == Some(Undefined))
      && (b.dimension.None? <==> config.dimension == Some(Str("undefined")))
      && (b.limit.None? <==> config.limit == Some(Str("undefined")))
      && (b.dimension.Some? ==> b.dimension.value == Read(config.dimension))
      && (b.limit.Some? ==> b.limit.value == Read(config.limit))
  {
  }

  /** Both values refer to one and the same moment object. */
  predicate SameMoment(a: Value, b: Value) {
    a.MomentRef? && b.MomentRef? && a.m == b.m
  }

  /** A configuration slot that holds a moment. */
  predicate HoldsMoment(field: Option<Value>) {
    field.Some? && field.value.MomentRef?
  }

  class Query {
    var config: Config
    var adamId: Value
    /** Undefined until a preset is chosen. */
    var endpoint: Option<string>
    /** `_time`: the relative window, null until `time` is called. */
    var window: Option<Window>

    /** `new Query(appId, config)`, with the clock's date passed in. */
    constructor (appId: Value, options: Config, now: CalendarDate)
      ensures adamId == appId && endpoint == None && window == None
      ensures config == InitialConfig(Read(config.start), Read(config.end), options)
      ensures DefaultDates(config, options, now)
      ensures options.start.None? ==> fresh(config.start.value.m)
      ensures options.end.None? ==> fresh(config.end.value.m)
    {
      config := NoOptions;
      adamId := Undefined;
      endpoint := None;
      window := None;
      new;
      Initialize(appId, options, now);
    }

    /** The body of `Query`, also reachable on an existing builder as
        `constructor()`; it leaves `endpoint` alone. */
    method Initialize(appId: Value, options: Config, now: CalendarDate)
      modifies this
      ensures adamId == appId && endpoint == old(endpoint) && window == None
      ensures config == InitialConfig(Read(config.start), Read(config.end), options)
      ensures DefaultDates(config, options, now)
      ensures options.start.None? ==> fresh(config.start.value.m)
      ensures options.end.None? ==> fresh(config.end.value.m)
    {
      var start := new Moment(Day(now));
      var end := new Moment(Day(now));
      config := InitialConfig(MomentRef(start), MomentRef(end), options);
      adamId := appId;
      window := None;
    }

    /** The time-series preset: no `limit`, no `dimension`. */
    method Metrics()
      modifies this
      ensures endpoint == Some(TimeSeriesEndpoint)
      ensures config == old(config).(limit := None, dimension := None)
      ensures adamId == old(adamId) && window == old(window)
    {
      endpoint := Some(TimeSeriesEndpoint);
      config := config.(limit := None, dimension := None);
    }

    /** The traffic-source preset: 100 results by referring domain. */
    method Sources()
      modifies this
      ensures endpoint == Some(SourcesEndpoint)
      ensures config == old(config).(limit := Some(Num(SourcesLimit)), dimension := Some(Str(Dimension["websites"])))
      ensures adamId == old(adamId) && window == old(window)
    {
      endpoint := Some(SourcesEndpoint);
      config := config.(limit := Some(Num(SourcesLimit)));
      config := config.(dimension := Some(Str(Dimension["websites"])));
    }

    /** `date(start, end)`: both normalised before they are stored; the start
        is stored before the end is looked at, so a bad end leaves the new
        start in place. A moment argument is stored as the same object. */
    method Date(start: Value, end: Value) returns (r: Outcome<Error>)
      modifies this
      ensures adamId == old(adamId) && endpoint == old(endpoint) && window == old(window)
      ensures Normalize(start).Err? ==> r == Fail(UnknownDateFormat(start)) && config == old(config)
      ensures Normalize(start).Ok? ==>
        && HoldsMoment(config.start)
        && config.start.value.m.stamp == Normalize(start).value
        && (start.MomentRef? ==> config.start == Some(start))
        && (!start.MomentRef? ==> fresh(config.start.value.m))
      ensures var e := EndArgument(start, end);
        Normalize(start).Ok? && Normalize(e).Err? ==>
          r == Fail(UnknownDateFormat(e)) && config == old(config).(start := config.start)
      ensures var e := EndArgument(start, end);
        Normalize(start).Ok? && Normalize(e).Ok? ==>
          && r == Pass
          && HoldsMoment(config.end)
          && config == old(config).(start := config.start, end := config.end)
          && config.end.value.m.stamp == Normalize(e).value
          && (e.MomentRef? ==> config.end == Some(e))
          && (!e.MomentRef? ==> fresh(config.end.value.m))
          && (config.start.value.m == config.end.value.m <==> SameMoment(start, e))
    {
      var s := ToMomentObject(start);
      if s.Err? {
        return Fail(s.error);
      }
      config := config.(start := Some(MomentRef(s.value)));
      var endArg := EndArgument(start, end);
      var e := ToMomentObject(endArg);
      if e.Err? {
        return Fail(e.error);
      }
      config := config.(end := Some(MomentRef(e.value)));
      r := Pass;
    }

    /** `time(amount, unit)`: remembered for `assembleBody`. */
    method Time(amount: int, unit: Unit)
      modifies this
      ensures window == Some(Window(amount, unit))
      ensures config == old(config) && adamId == old(adamId) && endpoint == old(endpoint)
    {
      window := Some(Window(amount, unit));
    }

    /** `limit(n)`: overwrites only `config.limit`. */
    method Limit(n: Value)
      modifies this
      ensures config == old(config).(limit := Some(n))
      ensures adamId == old(adamId) && endpoint == old(endpoint) && window == old(window)
    {
      config := config.(limit := Some(n));
    }

    /** The first step of `assembleBody`: both dates normalised and stored
        back, the start first. */
    method NormalizeDates() returns (r: Outcome<Error>)
      modifies this
      ensures adamId == old(adamId) && endpoint == old(endpoint) && window == old(window)
      ensures var startIn := old(Read(config.start));
        Normalize(startIn).Err? ==> r == Fail(UnknownDateFormat(startIn)) && config == old(config)
      ensures var startIn, endIn := old(Read(config.start)), old(Read(config.end));
        Normalize(startIn).Ok? && Normalize(endIn).Err? ==>
          && r == Fail(UnknownDateFormat(endIn))
          && HoldsMoment(config.start)
          && config == old(config).(start := config.start)
          && config.start.value.m.stamp == Normalize(startIn).value
      ensures var startIn, endIn := old(Read(config.start)), old(Read(config.end));
        (r.Pass? <==> Normalize(startIn).Ok? && Normalize(endIn).Ok?) &&
        (r.Pass? ==>
          && HoldsMoment(config.start) && HoldsMoment(config.end)
          && config == old(config).(start := config.start, end := config.end)
          && config.start.value.m.stamp == Normalize(startIn).value
          && config.end.value.m.stamp == Normalize(endIn).value
          && (startIn.MomentRef? ==> config.start == Some(startIn))
          && (!startIn.MomentRef? ==> fresh(config.start.value.m))
          && (endIn.MomentRef? ==> config.end == Some(endIn))
          && (!endIn.MomentRef? ==> fresh(config.end.value.m))
          && (config.start.value.m == config.end.value.m <==> SameMoment(startIn, endIn)))
    {
      var s := ToMomentObject(Read(config.start));
      if s.Err? {
        return Fail(s.error);
      }
      config := config.(start := Some(MomentRef(s.value)));
      var e := ToMomentObject(Read(config.end));
      if e.Err? {
        return Fail(e.error);
      }
      config := config.(end := Some(MomentRef(e.value)));
      r := Pass;
    }

    /** The range reconciliation: shift the start moment back by the window
        when the span is zero days and a window is set, otherwise make the
        start the end's moment when the end comes first. */
    method ReconcileRange()
      requires HoldsMoment(config.start) && HoldsMoment(config.end)
      modifies this, config.start.value.m
      ensures adamId == old(adamId) && endpoint == old(endpoint) && window == old(window)
      ensures HoldsMoment(config.start)
      ensures config == old(config).(start := config.start)
      ensures var range := Reconciled(old(config.start.value.m.stamp), old(config.end.value.m.stamp),
                                      window, old(config.start.value.m == config.end.value.m));
        config.start.value.m.stamp == range.start && config.end.value.m.stamp == range.end
      ensures ReconcileStep(old(config.start.value.m.stamp), old(config.end.value.m.stamp), window) == Collapse ==>
        config.start.value.m == config.end.value.m
      ensures ReconcileStep(old(config.start.value.m.stamp), old(config.end.value.m.stamp), window) != Collapse ==>
        config.start == old(config.start)
      ensures ReconcileStep(old(config.start.value.m.stamp), old(config.end.value.m.stamp), window) != ShiftStart ==>
        old(config.start.value.m).stamp == old(config.start.value.m.stamp)
    {
      var s, e := config.start.value.m, config.end.value.m;
      ghost var range := Reconciled(s.stamp, e.stamp, window, s == e);
      var step := ReconcileStep(s.stamp, e.stamp, window);
      if step == ShiftStart {
        s.Subtract(window.value.amount, window.value.unit);
        assert s.stamp == range.start && e.stamp == range.end;
      } else if step == Collapse {
        config := config.(start := Some(MomentRef(e)));
      }
    }

    /** `assembleBody()`: normalises and stores both dates, reconciles the
        range (shifting the start moment in place), wraps `measures` and
        returns the body. */
    method AssembleBody() returns (r: Result<Body, Error>)
      modifies this, Refs(Read(config.start))
      ensures adamId == old(adamId) && endpoint == old(endpoint) && window == old(window)
      ensures r.Ok? <==> old(Normalize(Read(config.start))).Ok? && old(Normalize(Read(config.end))).Ok?
      ensures old(Normalize(Read(config.start))).Err? ==>
        r == Err(UnknownDateFormat(old(Read(config.start)))) && config == old(config)
      ensures old(Normalize(Read(config.start))).Ok? && old(Normalize(Read(config.end))).Err? ==>
        && r == Err(UnknownDateFormat(old(Read(config.end))))
        && HoldsMoment(config.start)
        && config == old(config).(start := config.start)
        && config.start.value.m.stamp == old(Normalize(Read(config.start))).value
      ensures var startIn := old(Read(config.start));
        r.Err? && startIn.MomentRef? ==> startIn.m.stamp == old(startIn.m.stamp)
      ensures r.Ok? ==>
        var startIn, endIn := old(Read(config.start)), old(Read(config.end));
        var s0, e0 := old(Normalize(Read(config.start))).value, old(Normalize(Read(config.end))).value;
        var range := Reconciled(s0, e0, window, SameMoment(startIn, endIn));
        && HoldsMoment(config.start) && HoldsMoment(config.end)
        && config == old(config).(start := config.start, end := config.end, measures := config.measures)
        && config.start.value.m.stamp == range.start
        && config.end.value.m.stamp == range.end
        && (endIn.MomentRef? ==> config.end == Some(endIn))
        && (!endIn.MomentRef? ==> fresh(config.end.value.m))
        && (ReconcileStep(s0, e0, window) == Collapse ==> config.start.value.m == config.end.value.m)
        && (ReconcileStep(s0, e0, window) != Collapse && startIn.MomentRef? ==> config.start == Some(startIn))
        && (ReconcileStep(s0, e0, window) != Collapse && !startIn.MomentRef? ==> fresh(config.start.value.m))
        && (ReconcileStep(s0, e0, window) != ShiftStart && startIn.MomentRef? ==> startIn.m.stamp == old(startIn.m.stamp))
        && config.measures == Some(List(WrapMeasures(old(Read(config.measures)))))
        && r.value == BodyOf(range.start, range.end, config, adamId)
    {
      ghost var startIn, endIn := Read(config.start), Read(config.end);
      ghost var n0, n1 := Normalize(startIn), Normalize(endIn);
      var normalized := NormalizeDates();
      if normalized.Fail? {
        return Err(normalized.error);
      }
      ghost var range := Reconciled(n0.value, n1.value, window, SameMoment(startIn, endIn));
      ReconcileRange();
      assert config.start.value.m.stamp == range.start && config.end.value.m.stamp == range.end;
      var measures := Read(config.measures);
      config := config.(measures := Some(List(WrapMeasures(measures))));
      r := Ok(BodyOf(config.start.value.m.stamp, config.end.value.m.stamp, config, adamId));
    }
  }

  /** What a call through the factory returns: the builder, or the body when
      the method named is `assembleBody`. */
  datatype Built = Builder(query: Query) | Assembled(body: Body)

  /** The prototype methods that cannot throw, called with no arguments on a
      new builder. */
  predicate Infallible(m: QueryMethod) {
    m != DateMethod && m != AssembleBodyMethod
  }

  /** The state of a new builder `new Query(appId, config)` once the
      method `m` has been called on it with no arguments. */
  ghost predicate AfterCall(m: QueryMethod, q: Query, appId: Value, options: Config, now: CalendarDate)
    requires Infallible(m)
    reads q, Refs(Read(q.config.start)), Refs(Read(q.config.end))
  {
    match m
    case MetricsMethod =>
      && q.endpoint == Some(TimeSeriesEndpoint) && q.adamId == appId && q.window == None
      && q.config == InitialConfig(Read(q.config.start), Read(q.config.end), options).(limit := None, dimension := None)
      && DefaultDates(q.config, options, now)
    case SourcesMethod =>
      && q.endpoint == Some(SourcesEndpoint) && q.adamId == appId && q.window == None
      && q.config == InitialConfig(Read(q.config.start), Read(q.config.end), options)
                       .(limit := Some(Num(SourcesLimit)), dimension := Some(Str(Dimension["websites"])))
      && DefaultDates(q.config, options, now)
    case TimeMethod =>
      && q.endpoint == None && q.adamId == appId && q.window == Some(Window(0, Days))
      && q.config == InitialConfig(Read(q.config.start), Read(q.config.end), options)
      && DefaultDates(q.config, options, now)
    case LimitMethod =>
      && q.endpoint == None && q.adamId == appId && q.window == None
      && q.config == InitialConfig(Read(q.config.start), Read(q.config.end), options).(limit := Some(Undefined))
      && DefaultDates(q.config, options, now)
    case ConstructorMethod =>
      && q.endpoint == None && q.adamId == Undefined && q.window == None
      && q.config == InitialConfig(Read(q.config.start), Read(q.config.end), NoOptions)
      && DefaultDates(q.config, NoOptions, now)
  }

  /** `new Query(appId, config)[name]()` for a method that returns the builder. */
  method CallOnNew(m: QueryMethod, appId: Value, options: Config, now: CalendarDate) returns (q: Query)
    requires Infallible(m)
    ensures fresh(q)
    ensures AfterCall(m, q, appId, options, now)
  {
    q := new Query(appId, options, now);
    match m
    case ConstructorMethod =>
      // `Query` called as a method of the builder: re-initialised with no arguments
      q.Initialize(Undefined, NoOptions, now);
    case MetricsMethod =>
      q.Metrics();
    case SourcesMethod =>
      q.Sources();
    case TimeMethod =>
      // moment reads subtract(undefined, undefined) as a zero duration
      q.Time(0, Days);
    case LimitMethod =>
      q.Limit(Undefined);
  }

  /** `AnalyticsQuery(type, appId, config)`: any name under which
      `Query.prototype` holds a function is accepted and called with no
      arguments on a new builder. */
  method AnalyticsQuery(kind: string, appId: Value, options: Config, now: CalendarDate)
    returns (r: Result<Built, Error>)
    modifies Refs(Read(options.start))
    ensures MethodNamed(kind).None? <==> r == Err(UnknownQueryType(kind))
    ensures MethodNamed(kind).Some? && Infallible(MethodNamed(kind).value) ==>
      && r.Ok? && r.value.Builder? && fresh(r.value.query)
      && AfterCall(MethodNamed(kind).value, r.value.query, appId, options, now)
    ensures MethodNamed(kind) == Some(DateMethod) ==> r == Err(UnknownDateFormat(Undefined))
    ensures MethodNamed(kind) == Some(AssembleBodyMethod) && r.Ok? ==> r.value.Assembled?
    ensures MethodNamed(kind) == Some(AssembleBodyMethod) && options.start.Some? && Normalize(options.start.value).Err? ==>
      r == Err(UnknownDateFormat(options.start.value))
    ensures MethodNamed(kind) == Some(AssembleBodyMethod) && options.start.None? && options.end.None? ==>
      && r.Ok? && r.value.Assembled?
      && r.value.body.startTime == Format(Day(now)) && r.value.body.endTime == Format(Day(now))
      && r.value.body.adamId == [appId]
      && r.value.body.measures == WrapMeasures(Read(options.measures))
  {
    var called := MethodNamed(kind);
    if called.None? {
      return Err(UnknownQueryType(kind));
    }
    if Infallible(called.value) {
      var q := CallOnNew(called.value, appId, options, now);
      return Ok(Builder(q));
    }
    var q := new Query(appId, options, now);
    if called.value == DateMethod {
      var outcome := q.Date(Undefined, Undefined);
      r := if outcome.Fail? then Err(outcome.error) else Ok(Builder(q));
    } else {
      var body := q.AssembleBody();
      r := if body.Err? then Err(body.error) else Ok(Assembled(body.value));
    }
  }

  /** `AnalyticsQuery.metrics(appId, config)`. */
  method MetricsQuery(appId: Value, options: Config, now: CalendarDate) returns (q: Query)
    ensures fresh(q)
    ensures q.endpoint == Some(TimeSeriesEndpoint) && q.adamId == appId && q.window == None
    ensures q.config == InitialConfig(Read(q.config.start), Read(q.config.end), options).(limit := None, dimension := None)
    ensures DefaultDates(q.config, options, now)
    ensures options.start.None? ==> fresh(q.config.start.value.m)
    ensures options.end.None? ==> fresh(q.config.end.value.m)
  {
    q := new Query(appId, options, now);
    q.Metrics();
  }

  /** `AnalyticsQuery.sources(appId, config)`. */
  method SourcesQuery(appId: Value, options: Config, now: CalendarDate) returns (q: Query)
    ensures fresh(q)
    ensures q.endpoint == Some(SourcesEndpoint) && q.adamId == appId && q.window == None
    ensures q.config == InitialConfig(Read(q.config.start), Read(q.config.end), options)
                          .(limit := Some(Num(SourcesLimit)), dimension := Some(Str(Dimension["websites"])))
    ensures DefaultDates(q.config, options, now)
    ensures options.start.None? ==> fresh(q.config.start.value.m)
    ensures options.end.None? ==> fresh(q.config.end.value.m)
  {
    q := new Query(appId, options, now);
    q.Sources();
  }
}

=== FILE: scenarios.dfy ===
/** The builder on concrete inputs: the trailing week ending 2024-03-10,
    the inverted range 2024-03-10/2024-03-01, a single measure, the two
    presets by name, an unknown query type and a string without a date,
    each stated as calls on the class, in order. */
module Scenarios {
  import opened Wrappers
  import opened Calendar
  import opened Digits
  import opened Moments
  import opened Values
  import opened DateNormalizer
  import opened QueryBuilder

  /** The text `format` gives a day of March 2024. */
  lemma March2024Text(d: int)
    requires 1 <= d <= 31
    ensures Format(Day(Civil(2024, 3, d))) == "2024-03-" + [DigitChar(d / 10), DigitChar(d % 10)] + TimestampSuffix
  {
    ZeroFillFour(2024);
    ZeroFillTwo(3);
    ZeroFillTwo(d);
    assert ZeroFill(2024, 4) == "2024";
    assert ZeroFill(3, 2) == "03";
  }

  /** The timestamps of the scenarios below, as text. */
  lemma TimestampTexts()
    ensures Format(Day(Civil(2024, 3, 1))) == "2024-03-01T00:00:000Z"
    ensures Format(Day(Civil(2024, 3, 3))) == "2024-03-03T00:00:000Z"
    ensures Format(Day(Civil(2024, 3, 10))) == "2024-03-10T00:00:000Z"
  {
    March2024Text(1);
    March2024Text(3);
    March2024Text(10);
  }

  /** The date text `format` gives a day, without the time of day. */
  function DateText(day: CalendarDate): string {
    Format(Day(day))[..10]
  }

  /** The date texts of the examples above and the day a week before
      2024-03-10. */
  lemma ExampleTexts()
    ensures DateText(Civil(2024, 3, 1)) == "2024-03-01"
    ensures DateText(Civil(2024, 3, 10)) == "2024-03-10"
    ensures AddDays(Civil(2024, 3, 10), -7) == Civil(2024, 3, 3)
  {
    TimestampTexts();
    assert "2024-03-01T00:00:000Z"[..10] == "2024-03-01";
    assert "2024-03-10T00:00:000Z"[..10] == "2024-03-10";
  }

  /** `new Query(appId).date(DateText(start), DateText(end))`: two new
      moments holding the two days. */
  method Dated(start: CalendarDate, end: CalendarDate) returns (q: Query)
    requires 0 <= start.year <= 9999 && 0 <= end.year <= 9999
    ensures fresh(q) && q.window == None
    ensures HoldsMoment(q.config.start) && HoldsMoment(q.config.end)
    ensures fresh(q.config.start.value.m) && fresh(q.config.end.value.m)
    ensures q.config.start.value.m.stamp == Day(start) && q.config.end.value.m.stamp == Day(end)
    ensures !SameMoment(q.config.start.value, q.config.end.value)
  {
    q := new Query(Num(1), NoOptions, start);
    DatePrefixRoundTrip(Day(start));
    DatePrefixRoundTrip(Day(end));
    var dated := q.Date(Str(DateText(start)), Str(DateText(end)));
  }

  /** `date(d, d).time(7, 'days').assembleBody()`: the trailing week that
      ends on `d`. With `d` = 2024-03-10 this is 2024-03-03 to 2024-03-10. */
  method TrailingWeek(d: CalendarDate) returns (r: Result<Body, Error>)
    requires 0 <= d.year <= 9999
    ensures r.Ok?
    ensures r.value.startTime == Format(Day(AddDays(d, -7)))
    ensures r.value.endTime == Format(Day(d))
  {
    var q := Dated(d, d);
    q.Time(7, Days);
    ReconciledRange(Day(d), Day(d), q.window, false);
    DayNumberInjective(AddDays(d, -7), Reconciled(Day(d), Day(d), q.window, false).start.date);
    r := q.AssembleBody();
  }

  /** `date(start, end).assembleBody()` with the end first: both timestamps
      are the end's. With 2024-03-10 and 2024-03-01 both are 2024-03-01. */
  method InvertedRange(start: CalendarDate, end: CalendarDate) returns (r: Result<Body, Error>)
    requires 0 <= start.year <= 9999 && 0 <= end.year <= 9999
    requires CivilBefore(end, start)
    ensures r.Ok?
    ensures r.value.startTime == Format(Day(end)) && r.value.endTime == Format(Day(end))
  {
    var q := Dated(start, end);
    ReconciledRange(Day(start), Day(end), q.window, false);
    r := q.AssembleBody();
  }

  /** A single measure is sent as a one-element list. */
  method SingleMeasure(measure: string) returns (r: Result<Body, Error>)
    ensures r.Ok? && r.value.measures == [Str(measure)]
  {
    var q := MetricsQuery(Num(1), NoOptions.(measures := Some(Str(measure))), Civil(2024, 3, 10));
    r := q.AssembleBody();
    assert r.value.measures == WrapMeasures(Str(measure));
  }

  /** A name the prototype does not hold is refused. */
  method UnknownType() returns (r: Result<Built, Error>)
    ensures r == Err(UnknownQueryType("bogus"))
  {
    r := AnalyticsQuery("bogus", Num(1), NoOptions, Civil(2024, 3, 10));
  }

  /** `AnalyticsQuery('metrics', appId)`: the time-series preset, with no
      `limit`. */
  method MetricsByName() returns (r: Result<Built, Error>)
    ensures r.Ok? && r.value.Builder?
    ensures r.value.query.endpoint == Some(TimeSeriesEndpoint) && r.value.query.config.limit == None
  {
    QueryTypesArePresets();
    r := AnalyticsQuery(QueryType["metrics"], Num(1), NoOptions, Civil(2024, 3, 10));
  }

  /** `AnalyticsQuery('sources', appId)`: the sources preset, 100 results. */
  method SourcesByName() returns (r: Result<Built, Error>)
    ensures r.Ok? && r.value.Builder?
    ensures r.value.query.endpoint == Some(SourcesEndpoint) && r.value.query.config.limit == Some(Num(100))
  {
    QueryTypesArePresets();
    r := AnalyticsQuery(QueryType["sources"], Num(1), NoOptions, Civil(2024, 3, 10));
  }

  /** `date(m, end).assembleBody()` with the caller's moment `m` after the
      end: the builder's start becomes the end's moment and `m` itself is
      left holding its day. */
  method CollapseKeepsCallerMoment(start: CalendarDate, end: CalendarDate) returns (m: Moment, r: Result<Body, Error>)
    requires 0 <= end.year <= 9999 && CivilBefore(end, start)
    ensures r.Ok? && m.stamp == Day(start)
    ensures r.value.startTime == Format(Day(end)) && r.value.endTime == Format(Day(end))
  {
    m := new Moment(Day(start));
    var q := new Query(Num(1), NoOptions, start);
    DatePrefixRoundTrip(Day(end));
    var dated := q.Date(MomentRef(m), Str(DateText(end)));
    ReconcileStepCases(Day(start), Day(end), q.window);
    ReconciledRange(Day(start), Day(end), q.window, false);
    r := q.AssembleBody();
  }

  /** A string without the date pattern is refused and nothing is stored. */
  method BadDate(q: Query) returns (r: Outcome<Error>)
    modifies q
    ensures r == Fail(UnknownDateFormat(Str("not-a-date")))
    ensures q.config == old(q.config)
  {
    NotADateRejected();
    r := q.Date(Str("not-a-date"), Undefined);
  }
}

=== FILE: values.dfy ===
/** The loosely typed JavaScript values the builder stores in its
    configuration, and the errors it throws. */
module Values {
  import opened Calendar
  import opened Moments

  /** A JavaScript value, as far as the builder can tell values apart. */
  datatype Value =
    | Undefined
    | Null
    | Num(n: int)
    | Str(s: string)
    | List(items: seq<Value>)
    /** A `Date`; a date that is not on the calendar stands for `Invalid Date`. */
    | JsDate(date: Civil)
    /** A reference to a moment.js object. */
    | MomentRef(m: Moment)
    /** Any other object, boolean or function, passed through untouched. */
    | Other(id: nat)

  /** The errors the builder throws. */
  datatype Error =
    | UnknownQueryType(kind: string)
    | UnknownDateFormat(input: Value)

  /** The one message every refused date gets, whatever the input was. */
  const DateFormatMessage: string :=
    "Unknown date format. Please use Date() object or String() with format YYYY-MM-DD."

  /** The message each error carries: the query type message ends with the
      name that was refused; a refused date gets the fixed message, which
      does not name the input. */
  function Message(e: Error): (r: string)
    ensures e.UnknownQueryType? ==> |r| > |e.kind| && r[|r| - |e.kind|..] == e.kind
    ensures e.UnknownDateFormat? ==> r == DateFormatMessage
  {
    match e
    case UnknownQueryType(kind) => "Unknown query type: " + kind
    case UnknownDateFormat(_) => DateFormatMessage
  }

  /** The moment objects a value refers to. */
  function Refs(v: Value): set<Moment> {
    if v.MomentRef? then {v.m} else {}
  }
}

=== FILE: wrappers.dfy ===
/** Optional values and results that may carry an error. */
module Wrappers {

  datatype Option<+T> = None | Some(value: T)

  datatype Result<+T, +E> = Ok(value: T) | Err(error: E)

  /** The outcome of an operation that returns nothing but may throw. */
  datatype Outcome<+E> = Pass | Fail(error: E)
}
